=== FILE: README.md ===
# Lost-and-found board: a Dafny model of its core

The board is a small Flask application. Users register and log in with a
Ugandan phone number, and a browser page lists the lost and found items
ten at a time with infinite scrolling. This project models the parts of it
that decide things:

- the phone canonicaliser `validate_uganda_phone` (module `Phone`, over the
  digit and whitespace helpers of module `Text`);
- the decisions of the `login`, `register`, `logout` and `index` routes, as
  functions over a board: a map of users keyed by canonical phone, the next
  row id, and the session (module `Accounts`);
- the `/api/items` listing as a pure pipeline: filter, newest-first order
  (module `Sorting`), a ten-row window, the `has_next` flag and the image-path
  rule (module `Items`);
- on the client: `escapeHtml` (module `Escape`), the phone-field formatter
  (module `PhoneInput`), and the paging and filter state of the items grid as
  an event-driven state machine (module `Client`).

Every operation is a pure function over immutable datatypes. Where the
source leaves something open, the contract says exactly what is promised.
The main case is SQL, which does not fix the order of rows with equal
`created_at`: the listing is specified as a window of *some* newest-first
arrangement of the listed rows.

## Model

| member | source | states |
|---|---|---|
| Text.Digits | app.py:60 | the result holds only digits, is no longer than the input, and is the input itself when the input is all digits |
| Text.DigitsOfChar | app.py:60 | on one character, a digit is kept and anything else deleted; with `DigitsAppend` this fixes the result for every string |
| Text.DigitsAppend | app.py:60 | removing non-digits distributes over concatenation |
| Text.Strip | app.py:91 | the result is the input with a run of whitespace removed from each end, and it neither starts nor ends with whitespace |
| Text.DigitsOfStrip | app.py:91-92 | stripping whitespace never changes the digits of a string |
| Phone.Canonicalise | app.py:61-67 | a result is 12 digits starting "256", and its last nine digits are the last nine of the cleaned input |
| Phone.ValidateUgandaPhone | app.py:59-67 | a result is 12 digits starting "256", whose last nine digits are the last nine digits of the input |
| Phone.SpellingCanonicalises | app.py:61-66 | each of the three accepted shapes of a canonical number canonicalises to it |
| Phone.CanonicalisedIsSpelling | app.py:61-66 | any accepted digit string is one of the three shapes of its result |
| Phone.ValidateAcceptsExactlyThreeSpellings | app.py:59-67 | validation yields p exactly when p is canonical and the input's digits are p, or p's local nine digits (a mobile number), or those nine with a leading '0' |
| Phone.CanonicalIsFixedPoint | app.py:61-62 | a canonical number validates to itself |
| Phone.ValidateIdempotent | app.py:59-67 | validating a validated number returns it unchanged |
| Phone.ValidateIgnoresStrip | app.py:91-92 | surrounding whitespace never changes the validation result |
| Phone.ValidateExamples | app.py:61-66 | "0712345678", "712345678" and "256712345678" all validate to "256712345678" |
| Phone.ShortNumberRejected | app.py:67 | "12345" fits none of the shapes and is rejected |
| Accounts.IsLoggedIn | app.py:69-70 | defines being logged in as the session holding a user id (a predicate, with no contract of its own) |
| Accounts.UserWithId | app.py:80 | the lookup finds a user exactly when some stored user has that id, and returns a stored user with that id |
| Accounts.Index | app.py:76-83 | a logged-out session gets the landing page; a logged-in one gets the home page, with a user exactly when a stored user has the session's id, and then that user; on a valid board the user is always there |
| Accounts.Logout | app.py:146-149 | the session is cleared and the users are untouched |
| Accounts.Login | app.py:85-107 | a logged-in session is redirected unchanged; an invalid phone and an unknown phone re-render the form with their messages and change nothing; a known phone binds the session to that user's id; the users never change |
| Accounts.Register | app.py:109-144 | the checks run in order (empty name, invalid phone, already registered), and each failure re-renders with its message and leaves the board as it was; success adds exactly the canonical phone, with the stripped name and a fresh id, keeps every other user, and binds the session to the new id |
| Accounts.RegisterSucceedsIff | app.py:118-142 | from a logged-out session, registration succeeds exactly when the stripped name is non-empty, the phone validates, and the canonical phone is not yet registered |
| Accounts.RegisterPreservesValid | app.py:128-141 | registration keeps phones unique, users keyed by their canonical phone, ids distinct and the session pointing at a user; a success adds exactly one user |
| Accounts.LoginPreservesValid | app.py:98-103 | login keeps the board valid: the session only ever names a stored user |
| Accounts.LogoutPreservesValid | app.py:146-149 | logout keeps the board valid |
| Accounts.RegisterTwiceConflicts | app.py:127-131 | registering any spelling of an already registered number after logging out fails with "Phone already registered", and the first registration added one user |
| Accounts.LoginAfterRegister | app.py:98-103 | after registering and logging out, logging in with any spelling of the number binds the session to the new user, and the index page shows that user |
| Sorting.Insert | app.py:172 | inserting into a non-increasing sequence keeps it non-increasing and adds one element |
| Sorting.InsertKeepsElements | app.py:172 | insertion adds exactly the new element to the multiset |
| Sorting.SortDesc | app.py:172 | the result is non-increasing by the key and has the input's length |
| Sorting.SortKeepsElements | app.py:172 | the result is a permutation of the input |
| Items.Listed | app.py:161-170 | defines the WHERE clause: active, the type when the filter is "lost" or "found", the category when the filter is not empty (a predicate, with no contract of its own) |
| Items.Select | app.py:161-170 | every kept row is active, matches a "lost"/"found" type filter and a non-empty category filter, and each listed row is kept as often as it occurs |
| Items.Window | app.py:153-155 | the result is the run of consecutive rows starting at offset (page-1)*10, min(10, rows left) long, and keeps newest-first order |
| Items.Query | app.py:161-175 | at most ten rows, all listed rows of the table, newest first, and exactly the page's window of some newest-first permutation of all listed rows |
| Items.ImageUrl | app.py:180-190 | the result always starts with "/static/"; the placeholder for a NULL or blank path; otherwise the stripped path, kept when it already has the prefix and prefixed once otherwise |
| Items.ImageUrlIdempotent | app.py:182-188 | normalising an already normalised URL changes nothing, so the prefix is never doubled |
| Items.View | app.py:192-201 | an entry copies its row's id, title, description, category, location, type and creation time, and carries the row's normalised image path, which starts with "/static/" |
| Items.Views | app.py:178-201 | one JSON entry per row, in row order |
| Items.GetItems | app.py:151-207 | the entries are exactly the views of the page's window of some newest-first permutation of the listed rows; so there are at most ten, each the view of a listed row with a "/static/" image path, newest first; `has_next` holds exactly when ten came back; the page is echoed |
| Items.HasNextBoundary | app.py:205 | a false `has_next` means no listed row lies past this page; when the listed rows number exactly page*10, `has_next` is true and the next page is empty |
| Items.FifteenActiveItems | app.py:203-207 | with fifteen active items and no filters, page 1 is full with `has_next`, page 2 holds five without it |
| Items.ListingHonoursFilters | app.py:161-170 | every listed entry comes from an active row and honours the type and category filters |
| Escape.EscapeHtml | static/script.js:138-145 | the five global replacements in source order, `&` first; text without any of `& < > " '` is returned unchanged (its other properties are the lemmas below) |
| Escape.ReplaceAll | static/script.js:140 | a string without the pattern character comes back unchanged |
| Escape.ReplaceAllAppend | static/script.js:140-144 | a global one-character replacement distributes over concatenation |
| Escape.EscapeChar | static/script.js:140-144 | no entity contains `<`, `>`, `"` or `'`, and exactly the five special characters are rewritten |
| Escape.EscapeHtmlAppend | static/script.js:138-145 | the replacement chain distributes over concatenation |
| Escape.EscapeHtmlChar | static/script.js:140-144 | on one character the chain yields that character's entity, since the `&` of the later entities is never re-escaped |
| Escape.EscapeHtmlIsPerChar | static/script.js:138-145 | the chain equals per-character substitution |
| Escape.EscapeEachSafe | static/script.js:140-144 | per-character substitution leaves no `<`, `>`, `"` or `'` |
| Escape.EscapeHtmlSafe | static/script.js:138-145 | the output of `escapeHtml` contains no `<`, `>`, `"` or `'` |
| Escape.EscapeEachIdentity | static/script.js:140-144 | text without special characters is unchanged by per-character substitution |
| Escape.EscapeHtmlIdentity | static/script.js:138-145 | `escapeHtml` is the identity on text without `& < > " '` |
| Escape.UnescapeEscapeChar | static/script.js:140-144 | decoding an entity followed by any text gives back the character |
| Escape.UnescapeEscapeEach | static/script.js:140-144 | decoding undoes per-character substitution |
| Escape.UnescapeEscapeHtml | static/script.js:138-145 | escaping loses nothing: decoding its output gives back the input |
| PhoneInput.Internationalise | static/script.js:161-165 | the result is digits, empty only for empty input, and never starts with '0' or '7' (the rewrite itself is `InternationaliseRewrites` and `InternationaliseFixed`) |
| PhoneInput.InternationaliseRewrites | static/script.js:161-165 | a leading '0' is replaced by "256", and a leading '7' gets "256" in front, whatever digits follow |
| PhoneInput.FormatPhoneInput | static/script.js:159-170 | the new field value is empty exactly when the input has no digits, and is otherwise '+' followed only by digits |
| PhoneInput.DigitsOfFormatted | static/script.js:159-168 | the digits of the field value are the rewritten digits of the input |
| PhoneInput.InternationaliseAppend | static/script.js:161-165 | the rewrite looks only at the first digit, so appending digits commutes with it |
| PhoneInput.InternationaliseFixed | static/script.js:161-165 | digits not starting with '0' or '7' are left alone |
| PhoneInput.KeystrokesCompose | static/script.js:158-171 | formatting the field and then typing more gives what formatting the whole input at once gives |
| PhoneInput.FormatIdempotent | static/script.js:158-171 | formatting a formatted value changes nothing |
| PhoneInput.FormatShowsCanonical | static/script.js:159-170 | for every number the server accepts, the field shows '+' and then the canonical number, which validates to the same number |
| PhoneInput.FormatWidensAcceptance | static/script.js:161-162 | "0312345678" is rejected as typed, but its formatted value validates to "256312345678" |
| Client.LoadItems | static/script.js:84-98 | nothing happens while loading; otherwise loading starts and the request carries the current page, the reset flag, a type only when not "all" and a category only when not empty |
| Client.LoadDone | static/script.js:103-114 | a completed load sets `hasMore` to `has_next` and ends loading, touching nothing else |
| Client.LoadFailed | static/script.js:110-114 | a failed fetch or JSON parse ends loading and changes nothing else, `hasMore` included |
| Client.FilterClick | static/script.js:22-29 | the type becomes the button's, the page goes to 1, `hasMore` to true, and loading is on afterwards; a replacing load of page 1 for the new type and the unchanged category is sent exactly when none was in flight |
| Client.CategoryClick | static/script.js:65-80 | clicking the selected category clears it, clicking another selects it; the page goes to 1, `hasMore` to true, and loading is on afterwards; a replacing load of page 1 for the unchanged type and the new category is sent exactly when none was in flight |
| Client.Scroll | static/script.js:33-41 | a load of the next page, with the current type and category, starts exactly when nothing is loading, more items are expected and the page is near its end; otherwise nothing changes |
| Client.Step | static/script.js:3-116 | every event keeps the page number at least 1; a request is sent only when no load was in flight, loading is on afterwards, and the request carries the page, type and category the client is now on |
| Client.RunPreservesValid | static/script.js:3-116 | any sequence of events keeps the page number at least 1 |
| Client.Construct | static/script.js:2-16 | the constructor sets page 1, no filters and `hasMore`, then `init()` starts the first load: the state is the constructor's fields with loading on, and one request for page 1 without filters is in flight |
| Client.ScrollWaitsForFirstLoad | static/script.js:34 | a single scroll while the first load is in flight changes nothing and sends nothing |
| Client.RunRequestsValidPages | static/script.js:84-98 | from a valid state, every request any sequence of events sends asks for a page of at least 1 |
| Client.RunFromConstruction | static/script.js:2-116 | from the constructed grid, any sequence of events keeps the page at least 1, and every request of the session, the first one included, asks for a page of at least 1 |
| Client.ExhaustedListStaysQuiet | static/script.js:34 | once the list is exhausted and idle, events other than clicks change nothing and send nothing |
| Client.OneLoadInFlight | static/script.js:34-114 | while a load is in flight, no sequence of events without its completion or failure sends a request, and the client stays loading |
| Client.FilterDuringLoadSkipsPageOne | static/script.js:25-103 | a type click during a load, the load completing with more to come, then a scroll to the bottom sends exactly one request for the new type, and it is for page 2 without reset: page 1 of the new type is never fetched |
| Client.ClickDuringLoadIsNotFetched | static/script.js:25-28 | a filter click during a load records the filter but sends no request, and the earlier load's completion then sets `hasMore` |
| Client.RequestCarriesState | static/script.js:92-98 | with the server's defaults for the absent parameters, the request conveys exactly the client's page, type and category |
| Client.ScrollFetchesNextPageIffFull | static/script.js:33-41 | against the listing, after page p loads a scroll near the bottom asks for page p+1 exactly when page p came back full |

## Left out

- SQLite: connections, `init_db` seeding, commits and row objects. The users table is a map keyed by canonical phone, and the items table is a sequence of records.
- The `get_categories` route and the client's `loadCategories`/`renderCategories` rendering: they only fetch and display rows.
- The upload route: it hands a request to `send_from_directory`, a library call whose behaviour is outside this model.
- Flask plumbing: routing, templates, redirects, JSON encoding, and the signing of the session cookie. Only the decision and the session's user id are modelled.
- GET requests to `/login` and `/register`: they only render the empty form.
- Unparseable or non-positive `page` parameters: the listing requires a page of at least 1.
- The clock: the registration time is a parameter `now`.
- Concurrency: every request is one atomic step, and requests run one after another. In the source the existence check (app.py:128) and the INSERT (app.py:134) are separate statements, and the server started at app.py:228 handles requests on threads, so it can interleave two registrations of one phone; phone uniqueness then rests on a database constraint this model does not show.
- Item creation times are integers. SQLite may hold `created_at` as text or NULL, and NULLs sort last under `DESC`; neither is modelled.
- SQLite's row id assignment is modelled as a counter `nextId` above every existing id.
- Phone.ValidateUgandaPhone: Python's `\d` matches every Unicode decimal digit, so `re.sub(r'\D', ...)` keeps non-ASCII digits too; the model treats only '0'-'9' as digits.
- Text.Digits: only '0'-'9' count as digits; Python's `\D` at app.py:60 keeps every Unicode decimal digit.
- Text.Strip: models `str.strip()` with Python's whitespace characters; there is no Unicode normalisation.
- The DOM: `renderItems`, the grid's HTML, the loading indicator and the error banner. The model keeps only the state fields and the requests a load sends.
- `fetch` and `await`: a load is split into its start (`LoadItems`, which yields the request) and a later completion event (`LoadDone` or `LoadFailed`).
- Item text columns are modelled as never NULL. The schema allows NULL `description`, `category` and `location`, which reach the client as JSON `null`; `renderItems` then throws after `hasMore` has taken `has_next`, so the `catch` ends the load with `hasMore` changed. In the model that outcome is the `LoadDone` event, and `LoadFailed` stands only for a failed fetch or JSON parse.
- The scroll geometry: the 500-pixel test is the boolean `nearBottom`.
- `encodeURIComponent` and the unused `limit=10` query parameter: a request carries the parameters as values, not as a URL.
- The `description.substring(0, 100)` truncation in `renderItems`, part of the HTML templating.

=== FILE: accounts.dfy ===
/**
 The account side of the server: the users table, the session cookie's user
 id, and the decisions the `/login`, `/register`, `/logout` and `/` routes
 make on a form post. Users are kept in a map keyed by their canonical phone,
 which is how the routes look them up.
 */
module Accounts {
  import opened Wrappers
  import opened Text
  import opened Phone

  /** A row of the users table. */
  datatype User = User(id: nat, phone: string, name: string, createdAt: int)

  /**
   The server state the account routes touch: the users table keyed by phone,
   the row id the next insert receives, and the user id held by the session
   (None when nobody is logged in).
   */
  datatype Board = Board(users: map<string, User>, nextId: nat, session: Option<nat>)

  /** The page a route renders; a redirect always goes to the index page. */
  datatype View = LoginView | RegisterView

  datatype Response = RedirectToIndex | Render(view: View, error: Option<string>)

  datatype Outcome = Outcome(board: Board, response: Response)

  /** What `/` shows: the landing page, or the home page bound to the session's user. */
  datatype IndexPage = Landing | Home(user: Option<User>)

  const InvalidPhoneMessage := "Invalid Uganda phone number"
  const NotRegisteredMessage := "Phone not registered"
  const EmptyNameMessage := "Please enter your name"
  const AlreadyRegisteredMessage := "Phone already registered"

  /**
   Every user is stored under its own canonical phone (so phones are unique),
   row ids are distinct and below the next id, and a session names an
   existing user.
   */
  ghost predicate Valid(b: Board) {
    && (forall p :: p in b.users ==> b.users[p].phone == p && IsCanonical(p) && b.users[p].id < b.nextId)
    && (forall p, q :: p in b.users && q in b.users && p != q ==> b.users[p].id != b.users[q].id)
    && (b.session.Some? ==> exists p :: p in b.users && b.users[p].id == b.session.value)
  }

  /** `is_logged_in`: the session holds a user id. */
  predicate IsLoggedIn(b: Board) {
    b.session.Some?
  }

  /** The user whose row id is `id`, if any. */
  ghost function UserWithId(users: map<string, User>, id: nat): (r: Option<User>)
    ensures r.Some? <==> exists p :: p in users && users[p].id == id
    ensures r.Some? ==> r.value.id == id && exists p :: p in users && users[p] == r.value
  {
    if exists p :: p in users && users[p].id == id then
      var p :| p in users && users[p].id == id;
      Some(users[p])
    else
      None
  }

  /**
   `index`: the landing page without a session; otherwise the home page with
   the user the session's id names, or with no user when no row has that id
   (a cookie that outlived its user, or a forged one).
   */
  ghost function Index(b: Board): (r: IndexPage)
    ensures r.Landing? <==> !IsLoggedIn(b)
    ensures r.Home? ==> (r.user.Some? <==> exists p :: p in b.users && b.users[p].id == b.session.value)
    ensures r.Home? && r.user.Some? ==> r.user.value.id == b.session.value && r.user.value in b.users.Values
    ensures Valid(b) && r.Home? ==> r.user.Some?
  {
    if b.session.Some? then Home(UserWithId(b.users, b.session.value)) else Landing
  }

  /** `logout`: the session is cleared and the users table is left alone. */
  function Logout(b: Board): (r: Board)
    ensures !IsLoggedIn(r)
    ensures r.users == b.users && r.nextId == b.nextId
  {
    b.(session := None)
  }

  /**
   A POST to `/login`. A logged-in session is redirected untouched; otherwise
   the stripped phone field is validated and looked up, and the session is
   bound to the user found. The users table never changes.
   */
  function Login(b: Board, phoneField: string): (r: Outcome)
    ensures r.board.users == b.users && r.board.nextId == b.nextId
    ensures IsLoggedIn(b) ==> r == Outcome(b, RedirectToIndex)
    ensures !IsLoggedIn(b) && ValidateUgandaPhone(phoneField).None? ==>
      r == Outcome(b, Render(LoginView, Some(InvalidPhoneMessage)))
    ensures !IsLoggedIn(b) && ValidateUgandaPhone(phoneField).Some? && ValidateUgandaPhone(phoneField).value !in b.users ==>
      r == Outcome(b, Render(LoginView, Some(NotRegisteredMessage)))
    ensures !IsLoggedIn(b) && ValidateUgandaPhone(phoneField).Some? && ValidateUgandaPhone(phoneField).value in b.users ==>
      r.response == RedirectToIndex && r.board.session == Some(b.users[ValidateUgandaPhone(phoneField).value].id)
  {
    if IsLoggedIn(b) then
      Outcome(b, RedirectToIndex)
    else
      var phone := Strip(phoneField);
      ValidateIgnoresStrip(phoneField);
      match ValidateUgandaPhone(phone)
      case None => Outcome(b, Render(LoginView, Some(InvalidPhoneMessage)))
      case Some(validated) =>
        if validated in b.users then
          Outcome(b.(session := Some(b.users[validated].id)), RedirectToIndex)
        else
          Outcome(b, Render(LoginView, Some(NotRegisteredMessage)))
  }

  /**
   A POST to `/register`. A logged-in session is redirected untouched. The
   checks run in order: empty stripped name, invalid phone, phone already
   registered; each failure re-renders the form and changes nothing. On
   success one user is inserted under the canonical phone with the next row
   id, and the session is bound to it.
   */
  function Register(b: Board, nameField: string, phoneField: string, now: int): (r: Outcome)
    ensures IsLoggedIn(b) ==> r == Outcome(b, RedirectToIndex)
    ensures !IsLoggedIn(b) && Strip(nameField) == [] ==>
      r == Outcome(b, Render(RegisterView, Some(EmptyNameMessage)))
    ensures !IsLoggedIn(b) && Strip(nameField) != [] && ValidateUgandaPhone(phoneField).None? ==>
      r == Outcome(b, Render(RegisterView, Some(InvalidPhoneMessage)))
    ensures !IsLoggedIn(b) && Strip(nameField) != [] && ValidateUgandaPhone(phoneField).Some? && ValidateUgandaPhone(phoneField).value in b.users ==>
      r == Outcome(b, Render(RegisterView, Some(AlreadyRegisteredMessage)))
    ensures r.response.Render? ==> r.board == b
    ensures !IsLoggedIn(b) && Strip(nameField) != [] && ValidateUgandaPhone(phoneField).Some? && ValidateUgandaPhone(phoneField).value !in b.users ==>
      var p := ValidateUgandaPhone(phoneField).value;
      && r.board.users.Keys == b.users.Keys + {p}
      && r.board.users[p] == User(b.nextId, p, Strip(nameField), now)
      && (forall q :: q in b.users ==> r.board.users[q] == b.users[q])
      && r.board.session == Some(b.nextId)
      && r.response == RedirectToIndex
  {
    if IsLoggedIn(b) then
      Outcome(b, RedirectToIndex)
    else
      var name := Strip(nameField);
      var phone := Strip(phoneField);
      ValidateIgnoresStrip(phoneField);
      if name == [] then
        Outcome(b, Render(RegisterView, Some(EmptyNameMessage)))
      else
        match ValidateUgandaPhone(phone)
        case None => Outcome(b, Render(RegisterView, Some(InvalidPhoneMessage)))
        case Some(validated) =>
          if validated in b.users then
            Outcome(b, Render(RegisterView, Some(AlreadyRegisteredMessage)))
          else
            var user := User(b.nextId, validated, name, now);
            Outcome(Board(b.users[validated := user], b.nextId + 1, Some(user.id)), RedirectToIndex)
  }

  /** A registration attempt from a logged-out session succeeds exactly when the name and phone pass and the phone is new. */
  lemma RegisterSucceedsIff(b: Board, nameField: string, phoneField: string, now: int)
    requires !IsLoggedIn(b)
    ensures Register(b, nameField, phoneField, now).response == RedirectToIndex <==>
      && Strip(nameField) != []
      && ValidateUgandaPhone(phoneField).Some?
      && ValidateUgandaPhone(phoneField).value !in b.users
  {
    ValidateIgnoresStrip(phoneField);
  }

  /** Registration keeps the board valid, and a success grows the table by exactly one row. */
  lemma RegisterPreservesValid(b: Board, nameField: string, phoneField: string, now: int)
    requires Valid(b)
    ensures var r := Register(b, nameField, phoneField, now);
      && Valid(r.board)
      && |r.board.users| == |b.users| + (if r.board == b then 0 else 1)
  {
    var r := Register(b, nameField, phoneField, now);
    var v := ValidateUgandaPhone(phoneField);
    if !IsLoggedIn(b) && Strip(nameField) != [] && v.Some? && v.value !in b.users {
      var p := v.value;
      var u := r.board.users;
      forall q | q in u
        ensures u[q].phone == q && IsCanonical(q) && u[q].id < r.board.nextId
      {
        if q != p {
          assert q in b.users;
        }
      }
      assert u.Keys == b.users.Keys + {p};
      assert |u.Keys| == |b.users.Keys| + 1;
      assert p in u && u[p].id == r.board.session.value;
      assert r.board.session != b.session;
    }
  }

  /** Login keeps the board valid. */
  lemma LoginPreservesValid(b: Board, phoneField: string)
    requires Valid(b)
    ensures Valid(Login(b, phoneField).board)
  {
    var r := Login(b, phoneField);
    if r.board != b {
      var p := ValidateUgandaPhone(phoneField).value;
      assert p in r.board.users && r.board.users[p].id == r.board.session.value;
    }
  }

  /** Logging out keeps the board valid. */
  lemma LogoutPreservesValid(b: Board)
    requires Valid(b)
    ensures Valid(Logout(b))
  {
  }

  /**
   Registering the same number twice (logging out in between, in any of its
   spellings) fails the second time with the conflict message and adds no row.
   */
  lemma RegisterTwiceConflicts(b: Board, name1: string, phone1: string, name2: string, phone2: string, t1: int, t2: int)
    requires !IsLoggedIn(b)
    requires Strip(name1) != [] && ValidateUgandaPhone(phone1).Some? && ValidateUgandaPhone(phone1).value !in b.users
    requires Strip(name2) != []
    requires ValidateUgandaPhone(phone2) == ValidateUgandaPhone(phone1)
    ensures var b1 := Logout(Register(b, name1, phone1, t1).board);
      && Register(b1, name2, phone2, t2) == Outcome(b1, Render(RegisterView, Some(AlreadyRegisteredMessage)))
      && |b1.users| == |b.users| + 1
  {
    var r := Register(b, name1, phone1, t1);
    var p := ValidateUgandaPhone(phone1).value;
    assert r.board.users.Keys == b.users.Keys + {p};
    assert |r.board.users.Keys| == |b.users.Keys| + 1;
    var b1 := Logout(r.board);
    assert p in b1.users && !IsLoggedIn(b1);
  }

  /**
   After registering and logging out, logging in with any spelling of the
   same number binds the session to the new user, and the index page shows it.
   */
  lemma LoginAfterRegister(b: Board, name: string, phone: string, other: string, now: int)
    requires Valid(b) && !IsLoggedIn(b)
    requires Strip(name) != [] && ValidateUgandaPhone(phone).Some? && ValidateUgandaPhone(phone).value !in b.users
    requires ValidateUgandaPhone(other) == ValidateUgandaPhone(phone)
    ensures var b1 := Logout(Register(b, name, phone, now).board);
      var r := Login(b1, other);
      && r.response == RedirectToIndex
      && r.board.session == Some(b.nextId)
      && Valid(r.board)
      && Index(r.board) == Home(Some(User(b.nextId, ValidateUgandaPhone(phone).value, Strip(name), now)))
  {
    RegisterSucceedsIff(b, name, phone, now);
    RegisterPreservesValid(b, name, phone, now);
    var b1 := Logout(Register(b, name, phone, now).board);
    LogoutPreservesValid(Register(b, name, phone, now).board);
    var r := Login(b1, other);
    LoginPreservesValid(b1, other);
    var p := ValidateUgandaPhone(phone).value;
    var u := User(b.nextId, p, Strip(name), now);
    assert p in b1.users && b1.users[p] == u;
    var found := UserWithId(r.board.users, b.nextId);
    var q :| q in r.board.users && r.board.users[q] == found.value;
    assert q == p;
  }
}

=== FILE: client.dfy ===
/**
 The browser side of the board: the paging and filter state of the items
 grid and the events that change it (a type-filter click, a category click,
 a scroll, and the start and end of a load). A load is asynchronous: it
 starts with a request and ends later with the server's `has_next` or with
 a failure, and at most one is in flight.
 */
module Client {
  import opened Wrappers
  import Items

  /** The fields `currentPage`, `loading`, `hasMore`, `currentType`, `currentCategory`. */
  datatype Client = Client(
    currentPage: nat,
    loading: bool,
    hasMore: bool,
    currentType: string,
    currentCategory: string)

  /**
   A request for `/api/items`: the page, the `type` parameter (absent when the
   type is "all") and the `category` parameter (absent when empty), and
   whether the grid is replaced rather than extended.
   */
  datatype ItemsRequest = ItemsRequest(page: nat, kind: Option<string>, category: Option<string>, reset: bool)

  /** The (page, type, category) the server reads from a request, with its defaults "all" and "". */
  function ServerParams(req: ItemsRequest): (int, string, string) {
    (req.page, req.kind.ValueOr("all"), req.category.ValueOr(""))
  }

  /** The fields the constructor sets, before its call to `init()`. */
  const Initial := Client(1, false, true, "all", "")

  /** Every event keeps the page number at least 1. */
  predicate Valid(s: Client) {
    s.currentPage >= 1
  }

  /**
   `loadItems(reset)`: nothing while a load is in flight; otherwise the load
   starts and its request carries the current page and filters.
   */
  function LoadItems(s: Client, reset: bool): (r: (Client, Option<ItemsRequest>))
    ensures s.loading ==> r == (s, None)
    ensures !s.loading ==> r.0 == s.(loading := true) && r.1.Some?
    ensures r.1.Some? ==>
      && r.1.value.page == s.currentPage
      && r.1.value.reset == reset
      && (r.1.value.kind.None? <==> s.currentType == "all")
      && (r.1.value.category.None? <==> s.currentCategory == "")
  {
    if s.loading then (s, None)
    else
      var kind := if s.currentType != "all" then Some(s.currentType) else None;
      var category := if s.currentCategory != "" then Some(s.currentCategory) else None;
      (s.(loading := true), Some(ItemsRequest(s.currentPage, kind, category, reset)))
  }

  /** The load in flight came back: `hasMore` takes the server's `has_next`, and loading ends. */
  function LoadDone(s: Client, hasNext: bool): (r: Client)
    ensures s.loading ==> !r.loading && r.hasMore == hasNext
    ensures r.currentPage == s.currentPage && r.currentType == s.currentType && r.currentCategory == s.currentCategory
    ensures !s.loading ==> r == s
  {
    if s.loading then s.(hasMore := hasNext, loading := false) else s
  }

  /** The load in flight failed: loading ends, and `hasMore` is left as it was. */
  function LoadFailed(s: Client): (r: Client)
    ensures !r.loading
    ensures r.(loading := s.loading) == s
  {
    s.(loading := false)
  }

  /**
   A click on a type-filter button: the type becomes the button's, the page
   goes back to 1, `hasMore` to true, and a replacing load is asked for.
   */
  function FilterClick(s: Client, kind: string): (r: (Client, Option<ItemsRequest>))
    ensures r.0.currentType == kind && r.0.currentCategory == s.currentCategory
    ensures r.0.currentPage == 1 && r.0.hasMore
    ensures r.0.loading
    ensures r.1.Some? <==> !s.loading
    ensures r.1.Some? ==> r.1.value.page == 1 && r.1.value.reset
    ensures r.1.Some? ==> ServerParams(r.1.value) == (1, kind, s.currentCategory)
  {
    LoadItems(s.(currentType := kind, currentPage := 1, hasMore := true), true)
  }

  /**
   A click on a category card: clicking the selected category clears the
   filter, clicking another selects it; either way the page goes back to 1,
   `hasMore` to true, and a replacing load is asked for.
   */
  function CategoryClick(s: Client, category: string): (r: (Client, Option<ItemsRequest>))
    ensures s.currentCategory == category ==> r.0.currentCategory == ""
    ensures s.currentCategory != category ==> r.0.currentCategory == category
    ensures r.0.currentType == s.currentType
    ensures r.0.currentPage == 1 && r.0.hasMore
    ensures r.0.loading
    ensures r.1.Some? <==> !s.loading
    ensures r.1.Some? ==> r.1.value.page == 1 && r.1.value.reset
    ensures r.1.Some? ==> ServerParams(r.1.value) == (1, s.currentType, r.0.currentCategory)
  {
    var selected := if s.currentCategory == category then "" else category;
    LoadItems(s.(currentCategory := selected, currentPage := 1, hasMore := true), true)
  }

  /**
   A scroll event; `nearBottom` stands for the page being within 500 pixels
   of its end. Only when nothing is loading, more items are expected and the
   page is near its end does the page number advance and an extending load
   start; otherwise nothing changes.
   */
  function Scroll(s: Client, nearBottom: bool): (r: (Client, Option<ItemsRequest>))
    ensures r.1.Some? <==> !s.loading && s.hasMore && nearBottom
    ensures r.1.None? ==> r.0 == s
    ensures r.1.Some? ==>
      && r.0 == s.(currentPage := s.currentPage + 1, loading := true)
      && r.1.value.page == s.currentPage + 1 && !r.1.value.reset
      && ServerParams(r.1.value) == (s.currentPage + 1, s.currentType, s.currentCategory)
  {
    if s.loading || !s.hasMore then (s, None)
    else if nearBottom then LoadItems(s.(currentPage := s.currentPage + 1), false)
    else (s, None)
  }

  /** The events the grid reacts to. */
  datatype Event =
    | FilterClicked(kind: string)
    | CategoryClicked(category: string)
    | Scrolled(nearBottom: bool)
    | Loaded(hasNext: bool)
    | LoadFailedEvent

  /**
   One event. A request is sent only when no load was in flight, the sending
   starts one, and the request carries the page and filters the client is now on.
   */
  function Step(s: Client, e: Event): (r: (Client, Option<ItemsRequest>))
    ensures Valid(s) ==> Valid(r.0)
    ensures r.1.Some? ==> r.1.value.page == r.0.currentPage
    ensures r.1.Some? ==> !s.loading && r.0.loading
    ensures r.1.Some? ==> ServerParams(r.1.value) == (r.0.currentPage, r.0.currentType, r.0.currentCategory)
  {
    match e
    case FilterClicked(kind) => FilterClick(s, kind)
    case CategoryClicked(category) => CategoryClick(s, category)
    case Scrolled(nearBottom) => Scroll(s, nearBottom)
    case Loaded(hasNext) => (LoadDone(s, hasNext), None)
    case LoadFailedEvent => (LoadFailed(s), None)
  }

  /** The state after a sequence of events, and the requests they sent, in order. */
  function Run(s: Client, events: seq<Event>): (Client, seq<ItemsRequest>)
    decreases |events|
  {
    if events == [] then (s, [])
    else
      var step := Step(s, events[0]);
      var rest := Run(step.0, events[1..]);
      (rest.0, (if step.1.Some? then [step.1.value] else []) + rest.1)
  }

  /** Any sequence of events keeps the page number at least 1. */
  lemma {:induction false} RunPreservesValid(s: Client, events: seq<Event>)
    requires Valid(s)
    ensures Valid(Run(s, events).0)
    decreases |events|
  {
    if events != [] {
      RunPreservesValid(Step(s, events[0]).0, events[1..]);
    }
  }

  /**
   The constructor: the fields of `Initial`, then `init()` starts the first
   load, of page 1 without filters. Every event therefore finds that load
   in flight at first.
   */
  function Construct(): (r: (Client, Option<ItemsRequest>))
    ensures r.0 == Initial.(loading := true)
    ensures Valid(r.0) && r.0.loading && r.0.hasMore
    ensures r.0.currentPage == 1 && r.0.currentType == "all" && r.0.currentCategory == ""
    ensures r.1 == Some(ItemsRequest(1, None, None, false))
  {
    LoadItems(Initial, false)
  }

  /** A scroll before the first load has completed does nothing: page 2 is never asked for before page 1. */
  lemma ScrollWaitsForFirstLoad(nearBottom: bool)
    ensures Run(Construct().0, [Scrolled(nearBottom)]) == (Construct().0, [])
  {
    var s0 := Construct().0;
    assert [Scrolled(nearBottom)][1..] == [];
    assert Step(s0, Scrolled(nearBottom)) == (s0, None);
    assert Run(s0, []) == (s0, []);
    assert Run(s0, [Scrolled(nearBottom)]).1 == [] + [];
  }

  /**
   From a valid state, every request a sequence of events sends asks for a
   page of at least 1, which is what the listing needs of its `page`.
   */
  lemma {:induction false} RunRequestsValidPages(s: Client, events: seq<Event>)
    requires Valid(s)
    ensures forall i :: 0 <= i < |Run(s, events).1| ==> Run(s, events).1[i].page >= 1
    decreases |events|
  {
    if events != [] {
      var step := Step(s, events[0]);
      RunRequestsValidPages(step.0, events[1..]);
      var rest := Run(step.0, events[1..]).1;
      var head: seq<ItemsRequest> := if step.1.Some? then [step.1.value] else [];
      assert Run(s, events).1 == head + rest;
      forall i | 0 <= i < |head + rest|
        ensures (head + rest)[i].page >= 1
      {
        if i >= |head| {
          assert (head + rest)[i] == rest[i - |head|];
        }
      }
    }
  }

  /**
   Whatever the user does once the page is built, the grid stays valid, and
   every request of the session, the constructor's first one included, asks
   for a page of at least 1.
   */
  lemma RunFromConstruction(events: seq<Event>)
    ensures var (s0, first) := Construct();
      var (s, sent) := Run(s0, events);
      && Valid(s)
      && first.Some?
      && forall i :: 0 <= i < |[first.value] + sent| ==> ([first.value] + sent)[i].page >= 1
  {
    var (s0, first) := Construct();
    RunPreservesValid(s0, events);
    RunRequestsValidPages(s0, events);
    var all := [first.value] + Run(s0, events).1;
    forall i | 0 <= i < |all|
      ensures all[i].page >= 1
    {
      if i > 0 {
        assert all[i] == Run(s0, events).1[i - 1];
      }
    }
  }

  predicate IsClick(e: Event) {
    e.FilterClicked? || e.CategoryClicked?
  }

  /**
   Once the server has said there is nothing more and no load is in flight,
   scrolls (and stray completions) change nothing and send nothing until a
   filter or category click.
   */
  lemma {:induction false} ExhaustedListStaysQuiet(s: Client, events: seq<Event>)
    requires !s.hasMore && !s.loading
    requires forall i :: 0 <= i < |events| ==> !IsClick(events[i])
    ensures Run(s, events) == (s, [])
    decreases |events|
  {
    if events != [] {
      assert !IsClick(events[0]);
      assert Step(s, events[0]) == (s, None);
      ExhaustedListStaysQuiet(s, events[1..]);
      assert Run(s, events).1 == [] + Run(s, events[1..]).1;
    }
  }

  /**
   A click while a load is in flight sends no request: the new filters are
   recorded, but the grid keeps the results of the earlier load, and the
   completion of that load overwrites `hasMore` with its own `has_next`.
   */
  lemma ClickDuringLoadIsNotFetched(s: Client, kind: string, hasNext: bool)
    requires s.loading
    ensures var (s1, req) := FilterClick(s, kind);
      && req.None?
      && s1.currentType == kind
      && Run(s, [FilterClicked(kind), Loaded(hasNext)]) == (LoadDone(s1, hasNext), [])
      && LoadDone(s1, hasNext).hasMore == hasNext
  {
    var s1 := FilterClick(s, kind).0;
    var events := [FilterClicked(kind), Loaded(hasNext)];
    assert events[1..] == [Loaded(hasNext)];
    assert [Loaded(hasNext)][1..] == [];
    assert Step(s, events[0]) == (s1, None);
    assert Step(s1, Loaded(hasNext)) == (LoadDone(s1, hasNext), None);
    assert Run(LoadDone(s1, hasNext), []) == (LoadDone(s1, hasNext), []);
    assert Run(s1, [Loaded(hasNext)]).1 == [];
    assert Run(s, events).1 == [];
  }
  /** A load completion or failure: the events that can end a load in flight. */
  predicate EndsLoad(e: Event) {
    e.Loaded? || e.LoadFailedEvent?
  }

  /**
   At most one load is in flight: while one is, no event other than its
   completion or failure sends a request, and the client keeps loading.
   */
  lemma {:induction false} OneLoadInFlight(s: Client, events: seq<Event>)
    requires s.loading
    requires forall i :: 0 <= i < |events| ==> !EndsLoad(events[i])
    ensures Run(s, events).1 == [] && Run(s, events).0.loading
    decreases |events|
  {
    if events != [] {
      var step := Step(s, events[0]);
      assert !EndsLoad(events[0]);
      assert step.1.None? && step.0.loading;
      OneLoadInFlight(step.0, events[1..]);
      assert Run(s, events).1 == [] + Run(step.0, events[1..]).1;
    }
  }

  /**
   A type-filter click while a load is in flight, followed by that load
   completing with more to come and a scroll to the bottom, sends exactly one
   request for the new filter, and it is for page 2: page 1 of the new
   filter is never fetched, and the grid still shows the old filter's rows.
   */
  lemma FilterDuringLoadSkipsPageOne(s: Client, kind: string)
    requires s.loading
    ensures var sent := Run(s, [FilterClicked(kind), Loaded(true), Scrolled(true)]).1;
      && |sent| == 1
      && ServerParams(sent[0]) == (2, kind, s.currentCategory)
      && !sent[0].reset
  {
    var s1 := FilterClick(s, kind).0;
    var s2 := LoadDone(s1, true);
    var (s3, req) := Scroll(s2, true);
    var events := [FilterClicked(kind), Loaded(true), Scrolled(true)];
    assert events[1..] == [Loaded(true), Scrolled(true)];
    assert events[1..][1..] == [Scrolled(true)];
    assert [Scrolled(true)][1..] == [];
    assert Step(s, events[0]) == (s1, None);
    assert Step(s1, Loaded(true)) == (s2, None);
    assert req.Some? && Step(s2, Scrolled(true)) == (s3, req);
    assert Run(s3, []) == (s3, []);
    assert Run(s2, [Scrolled(true)]).1 == [req.value];
    assert Run(s1, events[1..]).1 == [req.value];
    assert Run(s, events).1 == [req.value];
  }


  /** Leaving out a parameter at its default value loses nothing: the server sees the client's state. */
  lemma RequestCarriesState(s: Client, reset: bool)
    requires !s.loading
    ensures ServerParams(LoadItems(s, reset).1.value) == (s.currentPage, s.currentType, s.currentCategory)
  {
  }

  /**
   Against a fixed item table, after a load of page p completes with the
   server's answer, a scroll near the bottom asks for page p + 1 exactly when
   page p came back full.
   */
  lemma ScrollFetchesNextPageIffFull(s: Client, items: seq<Items.Item>)
    requires Valid(s) && !s.loading
    ensures var (s1, req) := LoadItems(s, false);
      var answer := Items.GetItems(items, s.currentPage, s.currentType, s.currentCategory);
      var (s2, next) := Scroll(LoadDone(s1, answer.hasNext), true);
      && (next.Some? <==> |answer.items| == Items.PageSize)
      && (next.Some? ==> next.value.page == s.currentPage + 1)
  {
  }
}

=== FILE: escape.dfy ===
/**
 The client's `escapeHtml`: five global replacements applied one after the
 other, `&` first.
 */
module Escape {

  /** JavaScript's `s.replace(/c/g, rep)` for a one-character pattern. */
  function ReplaceAll(s: string, c: char, rep: string): (r: string)
    ensures c !in s ==> r == s
  {
    if s == [] then []
    else (if s[0] == c then rep else [s[0]]) + ReplaceAll(s[1..], c, rep)
  }

  lemma {:induction false} ReplaceAllAppend(a: string, b: string, c: char, rep: string)
    ensures ReplaceAll(a + b, c, rep) == ReplaceAll(a, c, rep) + ReplaceAll(b, c, rep)
  {
    if a == [] {
      assert a + b == b;
    } else {
      assert (a + b)[1..] == a[1..] + b;
      ReplaceAllAppend(a[1..], b, c, rep);
    }
  }

  /** A character `escapeHtml` rewrites. */
  predicate IsSpecial(c: char) {
    c == '&' || c == '<' || c == '>' || c == '"' || c == '\''
  }

  /** A character that must not survive escaping: it would open a tag or close an attribute. */
  predicate IsMarkup(c: char) {
    c == '<' || c == '>' || c == '"' || c == '\''
  }

  /** `escapeHtml`: the replacement chain, `&` first. */
  function EscapeHtml(s: string): (r: string)
    ensures '&' !in s && '<' !in s && '>' !in s && '"' !in s && '\'' !in s ==> r == s
  {
    var s1 := ReplaceAll(s, '&', "&amp;");
    var s2 := ReplaceAll(s1, '<', "&lt;");
    var s3 := ReplaceAll(s2, '>', "&gt;");
    var s4 := ReplaceAll(s3, '"', "&quot;");
    ReplaceAll(s4, '\'', "&#039;")
  }

  /** The entity a single character becomes; other characters stand for themselves. */
  function EscapeChar(c: char): (r: string)
    ensures forall i :: 0 <= i < |r| ==> !IsMarkup(r[i])
    ensures IsSpecial(c) <==> r != [c]
  {
    match c
    case '&' => "&amp;"
    case '<' => "&lt;"
    case '>' => "&gt;"
    case '"' => "&quot;"
    case '\'' => "&#039;"
    case _ => [c]
  }

  /** Per-character substitution, the reference definition of HTML escaping. */
  function EscapeEach(s: string): string {
    if s == [] then [] else EscapeChar(s[0]) + EscapeEach(s[1..])
  }

  lemma EscapeHtmlAppend(a: string, b: string)
    ensures EscapeHtml(a + b) == EscapeHtml(a) + EscapeHtml(b)
  {
    var a1, b1 := ReplaceAll(a, '&', "&amp;"), ReplaceAll(b, '&', "&amp;");
    ReplaceAllAppend(a, b, '&', "&amp;");
    var a2, b2 := ReplaceAll(a1, '<', "&lt;"), ReplaceAll(b1, '<', "&lt;");
    ReplaceAllAppend(a1, b1, '<', "&lt;");
    var a3, b3 := ReplaceAll(a2, '>', "&gt;"), ReplaceAll(b2, '>', "&gt;");
    ReplaceAllAppend(a2, b2, '>', "&gt;");
    var a4, b4 := ReplaceAll(a3, '"', "&quot;"), ReplaceAll(b3, '"', "&quot;");
    ReplaceAllAppend(a3, b3, '"', "&quot;");
    ReplaceAllAppend(a4, b4, '\'', "&#039;");
  }

  lemma ReplaceAllSingle(c: char, d: char, rep: string)
    ensures ReplaceAll([c], d, rep) == if c == d then rep else [c]
  {
    assert [c][1..] == [];
  }

  /** On one character the chain produces exactly that character's entity: no entity is escaped again. */
  lemma EscapeHtmlChar(c: char)
    ensures EscapeHtml([c]) == EscapeChar(c)
  {
    ReplaceAllSingle(c, '&', "&amp;");
    if c == '&' {
      var e := "&amp;";
      assert '<' !in e && '>' !in e && '"' !in e && '\'' !in e;
    } else {
      ReplaceAllSingle(c, '<', "&lt;");
      if c == '<' {
        var e := "&lt;";
        assert '>' !in e && '"' !in e && '\'' !in e;
      } else {
        ReplaceAllSingle(c, '>', "&gt;");
        if c == '>' {
          var e := "&gt;";
          assert '"' !in e && '\'' !in e;
        } else {
          ReplaceAllSingle(c, '"', "&quot;");
          if c == '"' {
            var e := "&quot;";
            assert '\'' !in e;
          } else {
            ReplaceAllSingle(c, '\'', "&#039;");
          }
        }
      }
    }
  }

  /** Because `&` is replaced first, the chain equals per-character substitution. */
  lemma {:induction false} EscapeHtmlIsPerChar(s: string)
    ensures EscapeHtml(s) == EscapeEach(s)
  {
    if s != [] {
      assert s == [s[0]] + s[1..];
      EscapeHtmlAppend([s[0]], s[1..]);
      EscapeHtmlChar(s[0]);
      EscapeHtmlIsPerChar(s[1..]);
    }
  }

  lemma {:induction false} EscapeEachSafe(s: string)
    ensures forall i :: 0 <= i < |EscapeEach(s)| ==> !IsMarkup(EscapeEach(s)[i])
  {
    if s != [] {
      EscapeEachSafe(s[1..]);
      var e, t := EscapeChar(s[0]), EscapeEach(s[1..]);
      assert forall i :: |e| <= i < |e + t| ==> (e + t)[i] == t[i - |e|];
    }
  }

  /** The output of `escapeHtml` never contains `<`, `>`, `"` or `'`. */
  lemma EscapeHtmlSafe(s: string)
    ensures '<' !in EscapeHtml(s) && '>' !in EscapeHtml(s) && '"' !in EscapeHtml(s) && '\'' !in EscapeHtml(s)
  {
    EscapeHtmlIsPerChar(s);
    EscapeEachSafe(s);
  }

  lemma {:induction false} EscapeEachIdentity(s: string)
    requires forall i :: 0 <= i < |s| ==> !IsSpecial(s[i])
    ensures EscapeEach(s) == s
  {
    if s != [] {
      EscapeEachIdentity(s[1..]);
      assert s == [s[0]] + s[1..];
    }
  }

  /** Text without any of `& < > " '` passes through `escapeHtml` unchanged. */
  lemma EscapeHtmlIdentity(s: string)
    requires forall i :: 0 <= i < |s| ==> !IsSpecial(s[i])
    ensures EscapeHtml(s) == s
  {
    EscapeHtmlIsPerChar(s);
    EscapeEachIdentity(s);
  }

  /** Decodes the five entities `escapeHtml` produces; everything else is kept. */
  function Unescape(s: string): string
    decreases |s|
  {
    if s == [] then []
    else if "&amp;" <= s then "&" + Unescape(s[5..])
    else if "&lt;" <= s then "<" + Unescape(s[4..])
    else if "&gt;" <= s then ">" + Unescape(s[4..])
    else if "&quot;" <= s then "\"" + Unescape(s[6..])
    else if "&#039;" <= s then "'" + Unescape(s[6..])
    else [s[0]] + Unescape(s[1..])
  }

  /** Decoding an escaped character in front of any text gives the character back. */
  lemma UnescapeEscapeChar(c: char, t: string)
    ensures Unescape(EscapeChar(c) + t) == [c] + Unescape(t)
  {
    var e := EscapeChar(c) + t;
    var n := |EscapeChar(c)|;
    assert e[n..] == t;
    if c == '&' {
      assert "&amp;" <= e;
    } else if c == '<' {
      assert !("&amp;" <= e) by { assert e[1] == 'l'; }
      assert "&lt;" <= e;
    } else if c == '>' {
      assert !("&amp;" <= e) && !("&lt;" <= e) by { assert e[1] == 'g'; }
      assert "&gt;" <= e;
    } else if c == '"' {
      assert !("&amp;" <= e) && !("&lt;" <= e) && !("&gt;" <= e) by { assert e[1] == 'q'; }
      assert "&quot;" <= e;
    } else if c == '\'' {
      assert !("&amp;" <= e) && !("&lt;" <= e) && !("&gt;" <= e) && !("&quot;" <= e) by { assert e[1] == '#'; }
      assert "&#039;" <= e;
    } else {
      assert e[0] == c && n == 1;
    }
  }

  lemma {:induction false} UnescapeEscapeEach(s: string)
    ensures Unescape(EscapeEach(s)) == s
  {
    if s != [] {
      UnescapeEscapeChar(s[0], EscapeEach(s[1..]));
      UnescapeEscapeEach(s[1..]);
      assert s == [s[0]] + s[1..];
    }
  }

  /** Escaping loses nothing: decoding the entities gives the original text back. */
  lemma UnescapeEscapeHtml(s: string)
    ensures Unescape(EscapeHtml(s)) == s
  {
    EscapeHtmlIsPerChar(s);
    UnescapeEscapeEach(s);
  }
}

=== FILE: items.dfy ===
/**
 The `/api/items` listing: active items, optionally narrowed by type and
 category, newest first, ten to a page, each with its image path mapped
 under "/static/".
 */
module Items {
  import opened Wrappers
  import opened Text
  import opened Sorting

  /** A row of the items table; `imageUrl` is None for a NULL column. */
  datatype Item = Item(
    id: nat,
    kind: string,
    title: string,
    description: string,
    category: string,
    location: string,
    imageUrl: Option<string>,
    status: string,
    createdAt: int,
    userId: Option<nat>)

  /** One entry of the JSON `items` array. */
  datatype ItemView = ItemView(
    id: nat,
    title: string,
    description: string,
    category: string,
    location: string,
    kind: string,
    imageUrl: string,
    createdAt: int)

  /** The JSON body: the page's items, the `has_next` flag and the page number. */
  datatype ItemsPage = ItemsPage(items: seq<ItemView>, hasNext: bool, page: int)

  const PageSize: nat := 10
  const StaticPrefix := "/static/"
  const PlaceholderImage := "/static/placeholder.png"

  /** The first row of page `page` (pages count from 1). */
  function Offset(page: int): (r: nat)
    requires page >= 1
  {
    (page - 1) * PageSize
  }

  /**
   The WHERE clause: the item is active; its type matches when the type filter
   is "lost" or "found" (any other value, "all" included, is ignored); its
   category matches when the category filter is not empty.
   */
  predicate Listed(it: Item, kind: string, category: string) {
    && it.status == "active"
    && (kind == "lost" || kind == "found" ==> it.kind == kind)
    && (category != "" ==> it.category == category)
  }

  /** The rows the WHERE clause keeps, in table order, each as often as it occurs. */
  function Select(items: seq<Item>, kind: string, category: string): (r: seq<Item>)
    ensures forall x :: x in r ==> Listed(x, kind, category)
    ensures forall x :: multiset(r)[x] == if Listed(x, kind, category) then multiset(items)[x] else 0
  {
    if items == [] then []
    else
      assert items == [items[0]] + items[1..];
      (if Listed(items[0], kind, category) then [items[0]] else []) + Select(items[1..], kind, category)
  }

  function CreatedAt(it: Item): int {
    it.createdAt
  }

  /** ORDER BY created_at DESC: creation times never increase along the sequence. */
  ghost predicate NewestFirst(s: seq<Item>) {
    SortedDesc(s, CreatedAt)
  }

  /** An order SQL may return `rows` in: newest first, and exactly the rows of `rows`. */
  ghost predicate IsArrangement(arr: seq<Item>, rows: seq<Item>) {
    NewestFirst(arr) && multiset(arr) == multiset(rows)
  }

  /** LIMIT 10 OFFSET (page - 1) * 10. */
  function Window(s: seq<Item>, page: int): (r: seq<Item>)
    requires page >= 1
    ensures |r| == if Offset(page) >= |s| then 0 else if |s| - Offset(page) >= PageSize then PageSize else |s| - Offset(page)
    ensures Offset(page) <= |s| ==> r == s[Offset(page)..Offset(page) + |r|]
    ensures forall x :: x in r ==> x in s
    ensures NewestFirst(s) ==> NewestFirst(r)
  {
    if Offset(page) >= |s| then []
    else if Offset(page) + PageSize <= |s| then s[Offset(page)..Offset(page) + PageSize]
    else s[Offset(page)..]
  }

  /**
   The rows the SELECT of `get_items` returns: at most ten, all of them listed
   rows of the table, newest first, and exactly the window at the page's
   offset of some newest-first arrangement of all the listed rows.
   */
  function Query(items: seq<Item>, page: int, kind: string, category: string): (r: seq<Item>)
    requires page >= 1
    ensures |r| <= PageSize
    ensures forall x :: x in r ==> x in items && Listed(x, kind, category)
    ensures NewestFirst(r)
    ensures var n := |Select(items, kind, category)|;
      |r| == if Offset(page) >= n then 0 else if n - Offset(page) >= PageSize then PageSize else n - Offset(page)
    ensures exists arr :: IsArrangement(arr, Select(items, kind, category)) && r == Window(arr, page)
  {
    var selected := Select(items, kind, category);
    var arr := SortDesc(selected, CreatedAt);
    SortKeepsElements(selected, CreatedAt);
    var r := Window(arr, page);
    forall x | x in r
      ensures x in items && Listed(x, kind, category)
    {
      assert x in multiset(arr);
      assert multiset(selected)[x] > 0;
      assert multiset(items)[x] > 0;
    }
    r
  }

  /**
   The image path of the JSON entry: the placeholder when the column is NULL
   or blank; otherwise the stripped path, with "/static/" put in front unless
   it already starts with it.
   */
  function ImageUrl(stored: Option<string>): (r: string)
    ensures StaticPrefix <= r
    ensures stored.None? || Strip(stored.value) == [] ==> r == PlaceholderImage
    ensures stored.Some? && Strip(stored.value) != [] ==>
      && (r == Strip(stored.value) || r == StaticPrefix + Strip(stored.value))
      && (StaticPrefix <= Strip(stored.value) ==> r == Strip(stored.value))
  {
    match stored
    case None => PlaceholderImage
    case Some(path) =>
      var dbPath := Strip(path);
      if dbPath == [] then PlaceholderImage
      else if !(StaticPrefix <= dbPath) then StaticPrefix + dbPath
      else dbPath
  }

  /** Feeding an image URL back through the normalisation leaves it as it is: the prefix is never doubled. */
  lemma ImageUrlIdempotent(stored: Option<string>)
    ensures ImageUrl(Some(ImageUrl(stored))) == ImageUrl(stored)
  {
    var r := ImageUrl(stored);
    assert Strip(r) == r by {
      assert r[0] == '/' && !IsSpace(r[0]);
      if stored.None? || Strip(stored.value) == [] {
        assert r == PlaceholderImage;
        assert r[|r| - 1] == 'g';
      } else {
        var p := Strip(stored.value);
        assert r[|r| - 1] == p[|p| - 1];
      }
      StripUnchanged(r);
    }
    assert r != [] && StaticPrefix <= r;
  }

  /** The JSON entry of one row: its fields as stored, apart from the normalised image path. */
  function View(it: Item): (r: ItemView)
    ensures r.id == it.id && r.kind == it.kind && r.category == it.category && r.createdAt == it.createdAt
    ensures r.title == it.title && r.description == it.description && r.location == it.location
    ensures r.imageUrl == ImageUrl(it.imageUrl) && StaticPrefix <= r.imageUrl
  {
    ItemView(it.id, it.title, it.description, it.category, it.location, it.kind, ImageUrl(it.imageUrl), it.createdAt)
  }

  /** The JSON entries of a list of rows, in the same order. */
  function Views(rows: seq<Item>): (r: seq<ItemView>)
    ensures |r| == |rows|
    ensures forall i :: 0 <= i < |rows| ==> r[i] == View(rows[i])
  {
    seq(|rows|, i requires 0 <= i < |rows| => View(rows[i]))
  }

  /**
   `get_items`: the page's rows turned into JSON entries, with `has_next` set
   when the page came back full.
   */
  function GetItems(items: seq<Item>, page: int, kind: string, category: string): (r: ItemsPage)
    requires page >= 1
    ensures r.page == page
    ensures |r.items| <= PageSize
    ensures r.hasNext <==> |r.items| == PageSize
    ensures forall i :: 0 <= i < |r.items| ==>
      && StaticPrefix <= r.items[i].imageUrl
      && (exists it :: it in items && Listed(it, kind, category) && View(it) == r.items[i])
    ensures forall i, j :: 0 <= i < j < |r.items| ==> r.items[i].createdAt >= r.items[j].createdAt
    ensures exists arr :: IsArrangement(arr, Select(items, kind, category)) && r.items == Views(Window(arr, page))
  {
    var rows := Query(items, page, kind, category);
    var views := Views(rows);
    var arr := SortDesc(Select(items, kind, category), CreatedAt);
    SortKeepsElements(Select(items, kind, category), CreatedAt);
    assert IsArrangement(arr, Select(items, kind, category)) && views == Views(Window(arr, page));
    forall i | 0 <= i < |views|
      ensures StaticPrefix <= views[i].imageUrl
      ensures exists it :: it in items && Listed(it, kind, category) && View(it) == views[i]
    {
      assert views[i] == View(rows[i]);
      assert rows[i] in rows;
    }
    forall i, j | 0 <= i < j < |views|
      ensures views[i].createdAt >= views[j].createdAt
    {
      assert views[i].createdAt == rows[i].createdAt && views[j].createdAt == rows[j].createdAt;
    }
    ItemsPage(views, |rows| == PageSize, page)
  }

  /**
   What `has_next` tells: false means no listed row lies beyond this page;
   true means the listed rows fill this page. When their number is exactly
   `page * 10`, the flag is true and the following page comes back empty.
   */
  lemma HasNextBoundary(items: seq<Item>, page: int, kind: string, category: string)
    requires page >= 1
    ensures var n := |Select(items, kind, category)|;
      var r := GetItems(items, page, kind, category);
      && (!r.hasNext ==> n <= Offset(page) + |r.items|)
      && (r.hasNext ==> n >= Offset(page) + PageSize)
      && (n == page * PageSize ==> r.hasNext && GetItems(items, page + 1, kind, category).items == [])
  {
    var n := |Select(items, kind, category)|;
    assert Offset(page + 1) == Offset(page) + PageSize;
  }

  /** Fifteen active items and no filters: a full first page with `has_next`, then the remaining five. */
  lemma FifteenActiveItems(items: seq<Item>)
    requires |Select(items, "all", "")| == 15
    ensures var p1 := GetItems(items, 1, "all", "");
      var p2 := GetItems(items, 2, "all", "");
      && |p1.items| == 10 && p1.hasNext
      && |p2.items| == 5 && !p2.hasNext
  {
    assert Offset(1) == 0 && Offset(2) == 10;
  }

  /** Only active rows are ever listed, whatever the filters; a type filter of "lost" or "found" is honoured. */
  lemma ListingHonoursFilters(items: seq<Item>, page: int, kind: string, category: string)
    requires page >= 1
    ensures forall v :: v in GetItems(items, page, kind, category).items ==>
      && (exists it :: it in items && it.status == "active" && it.id == v.id)
      && (kind == "lost" || kind == "found" ==> v.kind == kind)
      && (category != "" ==> v.category == category)
  {
    var r := GetItems(items, page, kind, category);
    forall v | v in r.items
      ensures exists it :: it in items && it.status == "active" && it.id == v.id
      ensures kind == "lost" || kind == "found" ==> v.kind == kind
      ensures category != "" ==> v.category == category
    {
      var i :| 0 <= i < |r.items| && r.items[i] == v;
      var it :| it in items && Listed(it, kind, category) && View(it) == r.items[i];
    }
  }
}

=== FILE: phone.dfy ===
/**
 The server's phone canonicaliser (`validate_uganda_phone`): a raw phone field
 is reduced to its digits and accepted in one of three shapes, each turned into
 the 12-digit canonical form that starts with the country code "256".
 */
module Phone {
  import opened Wrappers
  import opened Text

  const CountryCode := "256"
  const CanonicalLength := 12

  /** The form in which phones are stored and compared: 12 digits after "256". */
  predicate IsCanonical(p: string) {
    |p| == CanonicalLength && AllDigits(p) && CountryCode <= p
  }

  /**
   Accepts a digit string in one of three shapes, in this order: 12 digits
   starting with "256" (kept as is); 9 digits starting with '7' ("256"
   prepended); 10 digits starting with "07" (the '0' replaced by "256").
   */
  function Canonicalise(clean: string): (r: Option<string>)
    requires AllDigits(clean)
    ensures r.Some? ==> IsCanonical(r.value)
    ensures r.Some? ==> |clean| >= 9 && r.value[3..] == clean[|clean| - 9..]
  {
    if CountryCode <= clean && |clean| == 12 then
      Some(clean)
    else if "7" <= clean && |clean| == 9 then
      Some(CountryCode + clean)
    else if "07" <= clean && |clean| == 10 then
      Some(CountryCode + clean[1..])
    else
      None
  }

  /** `validate_uganda_phone`: strip every non-digit, then canonicalise. */
  function ValidateUgandaPhone(raw: string): (r: Option<string>)
    ensures r.Some? ==> IsCanonical(r.value)
    ensures r.Some? ==> |Digits(raw)| >= 9 && r.value[3..] == Digits(raw)[|Digits(raw)| - 9..]
  {
    Canonicalise(Digits(raw))
  }

  /** The spellings of canonical `p` that the server accepts. */
  predicate IsSpellingOf(clean: string, p: string)
    requires IsCanonical(p)
  {
    || clean == p
    || (p[3] == '7' && clean == p[3..])
    || (p[3] == '7' && clean == "0" + p[3..])
  }

  lemma SpellingCanonicalises(clean: string, p: string)
    requires IsCanonical(p) && AllDigits(clean) && IsSpellingOf(clean, p)
    ensures Canonicalise(clean) == Some(p)
  {
    assert p == CountryCode + p[3..] by {
      assert p[..3] == CountryCode;
    }
    if clean == p {
    } else if clean == p[3..] {
      assert |clean| == 9 && clean[0] == '7';
    } else {
      assert |clean| == 10 && clean[0] == '0' && clean[1] == '7';
      assert clean[1..] == p[3..];
    }
  }

  lemma CanonicalisedIsSpelling(clean: string)
    requires AllDigits(clean) && Canonicalise(clean).Some?
    ensures IsSpellingOf(clean, Canonicalise(clean).value)
  {
    var p := Canonicalise(clean).value;
    if CountryCode <= clean && |clean| == 12 {
    } else if "7" <= clean && |clean| == 9 {
      assert p[3..] == clean;
    } else {
      assert "07" <= clean && |clean| == 10;
      assert p[3..] == clean[1..];
      assert clean == "0" + p[3..];
    }
  }

  /**
   The three spellings of a canonical number that validate to it: the number
   itself, and, for a mobile number (a '7' after the country code), the local
   9-digit form and the 10-digit form with a leading '0'. Nothing else
   validates to it.
   */
  lemma ValidateAcceptsExactlyThreeSpellings(raw: string, p: string)
    ensures ValidateUgandaPhone(raw) == Some(p) <==> IsCanonical(p) && IsSpellingOf(Digits(raw), p)
  {
    var clean := Digits(raw);
    if IsCanonical(p) && IsSpellingOf(clean, p) {
      SpellingCanonicalises(clean, p);
    }
    if ValidateUgandaPhone(raw) == Some(p) {
      CanonicalisedIsSpelling(clean);
    }
  }

  /** Validating a canonical number returns it unchanged. */
  lemma CanonicalIsFixedPoint(p: string)
    requires IsCanonical(p)
    ensures ValidateUgandaPhone(p) == Some(p)
  {
  }

  /** Validation is idempotent: a validated phone validates to itself. */
  lemma ValidateIdempotent(raw: string)
    ensures match ValidateUgandaPhone(raw)
            case Some(p) => ValidateUgandaPhone(p) == Some(p)
            case None => true
  {
    var r := ValidateUgandaPhone(raw);
    if r.Some? {
      CanonicalIsFixedPoint(r.value);
    }
  }

  /** Surrounding whitespace never affects validation (the routes strip first). */
  lemma ValidateIgnoresStrip(raw: string)
    ensures ValidateUgandaPhone(Strip(raw)) == ValidateUgandaPhone(raw)
  {
    DigitsOfStrip(raw);
    assert Digits(Strip(raw)) == Digits(raw);
  }

  /** On a string of digits alone, validation is canonicalisation. */
  lemma ValidateDigitString(d: string)
    requires AllDigits(d)
    ensures ValidateUgandaPhone(d) == Canonicalise(d)
  {
  }

  /** The three spellings of one mobile number validate to the same canonical number. */
  lemma ValidateExamples(zero: string, local: string, canonical: string)
    requires zero == "0712345678" && local == "712345678" && canonical == "256712345678"
    ensures ValidateUgandaPhone(zero) == Some(canonical)
    ensures ValidateUgandaPhone(local) == Some(canonical)
    ensures ValidateUgandaPhone(canonical) == Some(canonical)
  {
    assert IsCanonical(canonical) && canonical[3] == '7';
    assert local == canonical[3..] && zero == "0" + canonical[3..];
    assert ValidateUgandaPhone(zero) == Some(canonical) by {
      assert AllDigits(zero);
      ValidateDigitString(zero);
      SpellingCanonicalises(zero, canonical);
    }
    assert ValidateUgandaPhone(local) == Some(canonical) by {
      assert AllDigits(local);
      ValidateDigitString(local);
      SpellingCanonicalises(local, canonical);
    }
    CanonicalIsFixedPoint(canonical);
  }

  /** A five-digit number fits none of the three shapes. */
  lemma ShortNumberRejected()
    ensures ValidateUgandaPhone("12345") == None
  {
    var s := "12345";
    assert AllDigits(s);
    ValidateDigitString(s);
  }
}

=== FILE: phone_input.dfy ===
/**
 The client's `input` handler on telephone fields: it keeps the digits,
 rewrites a local prefix into the country code and shows a '+' in front.
 It runs on every keystroke, so it is applied to its own output over and over.
 */
module PhoneInput {
  import opened Wrappers
  import opened Text
  import opened Phone

  /** The digits after the '+': a leading '0' becomes "256", a leading '7' gets "256" in front. */
  function Internationalise(d: string): (v: string)
    requires AllDigits(d)
    ensures AllDigits(v)
    ensures v == [] <==> d == []
    ensures v != [] ==> v[0] != '0' && v[0] != '7'
  {
    if "0" <= d then CountryCode + d[1..]
    else if "7" <= d then CountryCode + d
    else d
  }

  /** The field's new value: empty, or '+' followed only by digits. */
  function FormatPhoneInput(raw: string): (r: string)
    ensures r == [] <==> Digits(raw) == []
    ensures r != [] ==> r[0] == '+' && AllDigits(r[1..])
  {
    var value := Internationalise(Digits(raw));
    if |value| > 0 && !("+" <= value) then "+" + value else value
  }

  /** The digits of a formatted value are the rewritten digits of the input. */
  lemma DigitsOfFormatted(raw: string)
    ensures Digits(FormatPhoneInput(raw)) == Internationalise(Digits(raw))
  {
    var v := Internationalise(Digits(raw));
    if v != [] {
      DigitsAppend("+", v);
      assert Digits("+") == [];
    }
  }

  lemma InternationaliseAppend(d: string, e: string)
    requires AllDigits(d) && AllDigits(e) && d != []
    ensures AllDigits(d + e)
    ensures Internationalise(d + e) == Internationalise(d) + e
  {
    assert (d + e)[0] == d[0];
    if "0" <= d + e {
      assert (d + e)[1..] == d[1..] + e;
      assert CountryCode + (d[1..] + e) == (CountryCode + d[1..]) + e;
    } else if "7" <= d + e {
      assert CountryCode + (d + e) == (CountryCode + d) + e;
    }
  }

  /** The two rewrites: a leading '0' becomes the country code, and a leading '7' gets it in front. */
  lemma InternationaliseRewrites(x: string)
    requires AllDigits(x)
    ensures Internationalise("0" + x) == CountryCode + x
    ensures Internationalise("7" + x) == CountryCode + "7" + x
  {
    assert ("0" + x)[1..] == x;
    assert ("7" + x)[0] == '7';
    assert !("0" <= "7" + x) && "7" <= "7" + x;
  }

  lemma InternationaliseFixed(v: string)
    requires AllDigits(v) && v != [] && v[0] != '0' && v[0] != '7'
    ensures Internationalise(v) == v
  {
  }

  /**
   Typing is the same as pasting: formatting the field, then appending more
   input and formatting again, gives what formatting the whole input at once
   gives.
   */
  lemma KeystrokesCompose(a: string, b: string)
    ensures FormatPhoneInput(FormatPhoneInput(a) + b) == FormatPhoneInput(a + b)
  {
    var da, db := Digits(a), Digits(b);
    var va := Internationalise(da);
    var f := FormatPhoneInput(a);
    DigitsAppend(a, b);
    DigitsAppend(f, b);
    DigitsOfFormatted(a);
    assert Digits(f + b) == va + db;
    assert Digits(a + b) == da + db;
    if da == [] {
      assert da + db == db && va + db == db;
    } else {
      InternationaliseAppend(da, db);
      InternationaliseAppend(va, db);
      InternationaliseFixed(va);
      assert Internationalise(va + db) == Internationalise(da + db);
    }
  }

  /** The formatter is idempotent, so rewriting the field on every event is stable. */
  lemma FormatIdempotent(raw: string)
    ensures FormatPhoneInput(FormatPhoneInput(raw)) == FormatPhoneInput(raw)
  {
    KeystrokesCompose(raw, "");
    assert FormatPhoneInput(raw) + "" == FormatPhoneInput(raw);
    assert raw + "" == raw;
  }

  /** For every number the server accepts, the field shows '+' and then exactly the canonical number. */
  lemma FormatShowsCanonical(raw: string)
    requires ValidateUgandaPhone(raw).Some?
    ensures FormatPhoneInput(raw) == "+" + ValidateUgandaPhone(raw).value
    ensures ValidateUgandaPhone(FormatPhoneInput(raw)) == ValidateUgandaPhone(raw)
  {
    var d := Digits(raw);
    var p := ValidateUgandaPhone(raw).value;
    assert ValidateUgandaPhone(raw) == Canonicalise(d);
    assert Internationalise(d) == p by {
      if CountryCode <= d && |d| == 12 {
        assert d[0] == '2';
      } else if "7" <= d && |d| == 9 {
        assert d[0] == '7';
        assert p == CountryCode + d;
      } else {
        assert "07" <= d && |d| == 10;
        assert d[0] == '0';
        assert p == CountryCode + d[1..];
      }
    }
    var f := FormatPhoneInput(raw);
    assert f == "+" + p;
    assert Digits(f) == p by {
      DigitsOfFormatted(raw);
    }
    assert Canonicalise(p) == Some(p) by {
      CanonicalIsFixedPoint(p);
    }
  }

  /**
   The formatter is more lenient than the server: a 10-digit number with a
   leading '0' that is not a mobile number is rejected as typed, but accepted
   once the field has rewritten it.
   */
  lemma FormatWidensAcceptance(raw: string)
    requires raw == "0312345678"
    ensures ValidateUgandaPhone(raw) == None
    ensures ValidateUgandaPhone(FormatPhoneInput(raw)) == Some("256312345678")
  {
    assert AllDigits(raw);
    assert raw[0] == '0' && raw[1] == '3';
    assert ValidateUgandaPhone(raw) == None by {
      ValidateDigitString(raw);
    }
    var v := "256312345678";
    assert Digits(raw) == raw;
    assert Internationalise(raw) == v;
    var f := FormatPhoneInput(raw);
    assert Digits(f) == v by {
      DigitsOfFormatted(raw);
    }
    assert Canonicalise(v) == Some(v) by {
      assert AllDigits(v) && CountryCode <= v;
    }
  }
}

=== FILE: sorting.dfy ===
/**
 Insertion sort by a numeric key, largest key first: the ORDER BY ... DESC of
 the item listing. Stated for any element type, with the key as a parameter.
 */
module Sorting {

  /** Keys never increase along the sequence. */
  ghost predicate SortedDesc<T>(s: seq<T>, key: T -> int) {
    forall i, j :: 0 <= i < j < |s| ==> key(s[i]) >= key(s[j])
  }

  /** Putting an element whose key is no smaller than the head's in front keeps the order. */
  lemma ConsSortedDesc<T>(h: T, rest: seq<T>, key: T -> int)
    requires SortedDesc(rest, key)
    requires rest == [] || key(h) >= key(rest[0])
    ensures SortedDesc([h] + rest, key)
  {
    var r := [h] + rest;
    forall i, j | 0 <= i < j < |r|
      ensures key(r[i]) >= key(r[j])
    {
      assert r[j] == rest[j - 1];
      if i > 0 {
        assert r[i] == rest[i - 1];
      }
    }
  }

  /** Inserts `x` before the first element whose key is not larger than its own. */
  function Insert<T>(x: T, s: seq<T>, key: T -> int): (r: seq<T>)
    requires SortedDesc(s, key)
    ensures SortedDesc(r, key)
    ensures |r| == |s| + 1 && (r[0] == x || (s != [] && r[0] == s[0]))
  {
    if s == [] || key(x) >= key(s[0]) then
      ConsSortedDesc(x, s, key);
      [x] + s
    else
      var rest := Insert(x, s[1..], key);
      assert rest[0] == x || rest[0] == s[1];
      ConsSortedDesc(s[0], rest, key);
      [s[0]] + rest
  }

  lemma {:induction false} InsertKeepsElements<T>(x: T, s: seq<T>, key: T -> int)
    requires SortedDesc(s, key)
    ensures multiset(Insert(x, s, key)) == multiset(s) + multiset{x}
  {
    if !(s == [] || key(x) >= key(s[0])) {
      var rest := Insert(x, s[1..], key);
      assert multiset(rest) == multiset(s[1..]) + multiset{x} by {
        InsertKeepsElements(x, s[1..], key);
      }
      assert multiset(s) == multiset{s[0]} + multiset(s[1..]) by {
        assert s == [s[0]] + s[1..];
      }
      assert Insert(x, s, key) == [s[0]] + rest;
      assert multiset([s[0]] + rest) == multiset{s[0]} + multiset(rest);
    }
  }

  /** Largest key first; elements with equal keys keep no particular order. */
  function SortDesc<T>(s: seq<T>, key: T -> int): (r: seq<T>)
    ensures SortedDesc(r, key) && |r| == |s|
  {
    if s == [] then [] else Insert(s[0], SortDesc(s[1..], key), key)
  }

  /** Sorting neither loses nor invents elements. */
  lemma {:induction false} SortKeepsElements<T>(s: seq<T>, key: T -> int)
    ensures multiset(SortDesc(s, key)) == multiset(s)
  {
    if s != [] {
      var t := SortDesc(s[1..], key);
      assert multiset(t) == multiset(s[1..]) by {
        SortKeepsElements(s[1..], key);
      }
      assert multiset(Insert(s[0], t, key)) == multiset(t) + multiset{s[0]} by {
        InsertKeepsElements(s[0], t, key);
      }
      assert multiset(s) == multiset(s[1..]) + multiset{s[0]} by {
        assert s == [s[0]] + s[1..];
      }
      assert SortDesc(s, key) == Insert(s[0], t, key);
    }
  }
}

=== FILE: text.dfy ===
/**
 Character classes and string helpers shared by the server and the client:
 the digit filter behind `re.sub(r'\D', '', s)` / `s.replace(/\D/g, '')`,
 and Python's `str.strip()`.
 */
module Text {

  /** An ASCII decimal digit, the class `\d` matches in a JavaScript regex. */
  predicate IsDigit(c: char) {
    '0' <= c <= '9'
  }

  predicate AllDigits(s: string) {
    forall i :: 0 <= i < |s| ==> IsDigit(s[i])
  }

  /** The characters Python's `str.isspace()` accepts, which `str.strip()` removes. */
  predicate IsSpace(c: char) {
    || '\U{9}' <= c <= '\U{D}'
    || '\U{1C}' <= c <= '\U{20}'
    || c == '\U{85}' || c == '\U{A0}' || c == '\U{1680}'
    || '\U{2000}' <= c <= '\U{200A}'
    || c == '\U{2028}' || c == '\U{2029}' || c == '\U{202F}' || c == '\U{205F}'
    || c == '\U{3000}'
  }

  predicate AllSpace(s: string) {
    forall i :: 0 <= i < |s| ==> IsSpace(s[i])
  }

  lemma SpaceIsNotDigit(c: char)
    ensures IsSpace(c) ==> !IsDigit(c)
  {
  }

  /** The digits of `s`, in order: every other character is deleted. */
  function Digits(s: string): (r: string)
    ensures AllDigits(r)
    ensures |r| <= |s|
    ensures AllDigits(s) ==> r == s
  {
    if s == [] then []
    else (if IsDigit(s[0]) then [s[0]] else []) + Digits(s[1..])
  }

  /** On one character: a digit is kept, anything else is deleted. */
  lemma DigitsOfChar(c: char)
    ensures Digits([c]) == if IsDigit(c) then [c] else []
  {
    assert [c][1..] == [];
  }

  /** Deleting non-digits commutes with concatenation. */
  lemma {:induction false} DigitsAppend(a: string, b: string)
    ensures Digits(a + b) == Digits(a) + Digits(b)
  {
    if a == [] {
      assert a + b == b;
    } else {
      var head := if IsDigit(a[0]) then [a[0]] else [];
      assert (a + b)[0] == a[0];
      assert (a + b)[1..] == a[1..] + b;
      DigitsAppend(a[1..], b);
      assert Digits(a + b) == head + (Digits(a[1..]) + Digits(b));
      assert Digits(a) == head + Digits(a[1..]);
    }
  }

  /** Digits of a string made only of whitespace: none. */
  lemma {:induction false} DigitsOfSpace(s: string)
    requires AllSpace(s)
    ensures Digits(s) == []
  {
    if s != [] {
      SpaceIsNotDigit(s[0]);
      DigitsOfSpace(s[1..]);
    }
  }

  lemma AllSpaceAppend(a: string, b: string)
    requires AllSpace(a) && AllSpace(b)
    ensures AllSpace(a + b)
  {
    assert forall i :: |a| <= i < |a + b| ==> (a + b)[i] == b[i - |a|];
  }

  /** How many whitespace characters `s` starts with. */
  function LeadingSpace(s: string): (k: nat)
    ensures k <= |s| && AllSpace(s[..k])
    ensures k == |s| || !IsSpace(s[k])
  {
    if |s| > 0 && IsSpace(s[0]) then
      var k := LeadingSpace(s[1..]);
      assert s[..k + 1] == [s[0]] + s[1..][..k];
      AllSpaceAppend([s[0]], s[1..][..k]);
      k + 1
    else 0
  }

  /** How many whitespace characters `s` ends with. */
  function TrailingSpace(s: string): (k: nat)
    ensures k <= |s| && AllSpace(s[|s| - k..])
    ensures k == |s| || !IsSpace(s[|s| - k - 1])
  {
    if |s| > 0 && IsSpace(s[|s| - 1]) then
      var init := s[..|s| - 1];
      var k := TrailingSpace(init);
      var m := |s| - 1 - k;
      assert init[|init| - k..] == s[m..|s| - 1];
      assert s[m..] == s[m..|s| - 1] + [s[|s| - 1]];
      AllSpaceAppend(s[m..|s| - 1], [s[|s| - 1]]);
      assert m == 0 || init[m - 1] == s[m - 1];
      k + 1
    else 0
  }

  /** Python's `str.strip()`: the text between the leading and the trailing whitespace. */
  function Strip(s: string): (r: string)
    ensures exists i, j :: 0 <= i <= j <= |s| && AllSpace(s[..i]) && AllSpace(s[j..]) && r == s[i..j]
    ensures r == [] || (!IsSpace(r[0]) && !IsSpace(r[|r| - 1]))
  {
    var i := LeadingSpace(s);
    var t := s[i..];
    var k := TrailingSpace(t);
    var j := i + (|t| - k);
    var r := s[i..j];
    assert s[j..] == t[|t| - k..];
    assert AllSpace(s[..i]) && AllSpace(s[j..]);
    assert r != [] ==> r[0] == t[0] && !IsSpace(t[0]);
    assert r != [] ==> r[|r| - 1] == t[|t| - k - 1];
    r
  }

  /** A string with no whitespace at either end is its own strip. */
  lemma StripUnchanged(s: string)
    requires s == [] || (!IsSpace(s[0]) && !IsSpace(s[|s| - 1]))
    ensures Strip(s) == s
  {
  }

  /** Stripping never changes which digits a string holds. */
  lemma DigitsOfStrip(s: string)
    ensures Digits(Strip(s)) == Digits(s)
  {
    var i, j :| 0 <= i <= j <= |s| && AllSpace(s[..i]) && AllSpace(s[j..]) && Strip(s) == s[i..j];
    assert s == s[..i] + s[i..j] + s[j..];
    DigitsAppend(s[..i] + s[i..j], s[j..]);
    DigitsAppend(s[..i], s[i..j]);
    DigitsOfSpace(s[..i]);
    DigitsOfSpace(s[j..]);
  }
}

=== FILE: wrappers.dfy ===
/**
 An optional value: the `None` of `validate_uganda_phone`, a NULL
 `image_url` column, a query parameter the client leaves out.
 */
module Wrappers {

  datatype Option<+T> = None | Some(value: T) {

    /** The value held, or `default` when there is none. */
    function ValueOr(default: T): (r: T)
      ensures Some? ==> r == value
      ensures None? ==> r == default
    {
      if Some? then value else default
    }
  }
}
